=== FILE: README.md ===
# Vector-store lifecycle and RAG request pipeline of a PDF chat backend

This project models the decision logic of a Flask backend. The backend lets a
user upload a PDF, indexes its text chunks in a per-document vector store
(ChromaDB), and answers questions from retrieved chunks through a hosted LLM.
Everything that talks to the outside world is an input to the model:
- PDF text extraction and chunking;
- the embedding service and the vector database;
- similarity search;
- the LLM's HTTP endpoint;
- the file system and the UUID generator.

What is left is sequential logic over strings, sequences and maps.

- `VectorStore` — `get_or_create_vector_store`. The state is the in-memory
  cache (`map<Id, Handle>`) plus the on-disk catalogue of collections with
  their chunk counts (`map<Id, nat>`). The lookup goes, in order:
  - cache hit;
  - load a non-empty on-disk collection and publish it to the cache;
  - build from the supplied chunks, publish and return;
  - otherwise raise `NotFound`.

  A collection with zero chunks counts as absent. An exception while loading
  is swallowed and falls through to the build path.
- `UploadRoute` — `/upload_pdf`. It returns 400 for a missing part, an empty
  name or a non-`.pdf` name. It returns 500, removing the saved file, when the
  document has no text, yields no chunks, or fails to index.
- `ChatRoute` — `/chat`:
  - 400 for a missing field;
  - 404 when the lookup fails;
  - the retrieved chunks are joined with `"\n\n"`;
  - a fixed 200 answer, without asking the model, when the context is only
    whitespace;
  - otherwise the context is cut to 28000 characters plus a marker.
- `WipeRoute` — `/delete_all_data`. The upload folder and the vector-store
  folder (twice) are cleared, then the cache is emptied, then the JSON
  output folder is cleared; each block is best effort and runs whatever
  happened before it. Successes and failures are
  collected, and the status is 500 exactly when some block failed.
- `LlmService` — `get_llm_response`. It builds the two-message request, with
  a fixed model and temperature. It raises when the API key is missing, and a
  failed completion call becomes a fixed apology.
- `MainBackend` — `process_pdf_chat`, the older pipeline that sends all
  chunks, cut at 20000 characters.
- `Text` — the Python string operations used above: `isspace`, `strip`,
  `join`, the cut with its marker, `lower().endswith('.pdf')` and
  `os.path.splitext`.

Decisions:

- **No corrupt outcome.** A disk-load exception is not a separate outcome.
  As in the code (backend/app.py:99-101), it is indistinguishable from
  "absent": the lookup rebuilds when chunks are given and raises `NotFound`
  otherwise.
- **No build guard.** The code has none. A build onto a collection that
  already exists (empty, or unreadable when loading raised) adds the chunks
  to it, so its count grows by `|chunks|`.
- **Failed builds.** A failed build may leave behind the empty collection
  that `Chroma.from_texts` creates before embedding. Because empty
  collections count as absent, such a leftover is never served
  (`VectorStore.FailedBuildIsNotServed`).
- **Duplicated wipe block.** The vector-store folder block of
  `/delete_all_data` is written twice (backend/app.py:334-346 and 349-361),
  and the model runs it twice. A folder that was removed and recreated is
  found again by the second block, with the same outcome, so its entry
  appears twice. A folder whose `rmtree` raised fails again, so its error
  appears twice. A folder that was removed but could not be recreated is
  absent for the second block, so it is reported as one error.
- **Upload file names.** The uploaded file is stored as UUID + extension,
  where the extension follows POSIX `os.path.splitext`. A file named `.pdf`
  (only dots before the suffix) therefore passes validation and is stored
  under the bare UUID (`UploadRoute.StoredNameExtension`).

## Model

| member | source | states |
|---|---|---|
| VectorStore.GetOrCreate | backend/app.py:56-122 | A returned handle is the one the cache now holds for the id; a failure leaves no cache entry for the id; entries for other ids are untouched in cache and on disk; a cached entry is never replaced; a build happens only on a cache miss with non-empty chunks, and without one the disk is unchanged |
| VectorStore.CacheHit | backend/app.py:74-76 | A cache hit returns the cached handle, changes neither cache nor disk, and builds nothing |
| VectorStore.LoadFromDisk | backend/app.py:78-92 | On a miss, a readable collection with count > 0 is opened, inserted into the cache and returned, without a build |
| VectorStore.EmptyCollectionIsAbsent | backend/app.py:84-97 | A zero-count collection is never cached by the load path; with no chunks it yields NotFound and no change |
| VectorStore.BuildOnMiss | backend/app.py:99-114 | With the id absent, empty or failing to load and non-empty chunks, a build runs; on success the cache maps the id to a handle built from those chunks, which is returned, and the collection on disk grows by the number of chunks; a collection that already held chunks (one that failed to load) keeps them, so the handle then searches more than the new chunks |
| VectorStore.MissingWithoutChunks | backend/app.py:103-122 | With no loadable collection and chunks None or empty, the lookup raises NotFound and leaves cache and disk unchanged |
| VectorStore.BuildFailureLeavesNoEntry | backend/app.py:105-119 | A failed build re-raises, leaves the cache as it was (no entry for the id), and creates no non-empty collection |
| VectorStore.FailedBuildIsNotServed | backend/app.py:84-119 | After a failed build, a chunk-less lookup of an id with no non-empty collection still raises NotFound |
| VectorStore.SecondLookupHits | backend/app.py:74-114 | After one successful lookup, a second one for the same id returns the same handle, changes nothing and builds nothing |
| VectorStore.GetOrCreateConsistent | backend/app.py:84-114 | The lookup preserves the invariant that every cached handle is named by its key and backed by a non-empty on-disk collection |
| UploadRoute.UploadPdf | backend/app.py:136-191 | 400 exactly for a missing part, an empty file name, or a name not ending in .pdf after lower-casing, with nothing changed; 200 only with text and chunks, keeping the stored file, caching its store and returning its URL; every 500 after the save removes the saved file; a saved, readable, chunkable upload answers 200 exactly when its store lookup succeeds (a failed build is a 500) and leaves the store as that lookup left it, while every earlier exit leaves the store alone; no other upload is touched |
| UploadRoute.SaveFailureChangesNothing | backend/app.py:157-191 | A save that raises gives 500 and changes nothing |
| UploadRoute.FreshUploadIndexesChunks | backend/app.py:171-186 | A fresh readable, chunkable upload whose build succeeds returns 200 and caches a handle built from exactly its chunks |
| UploadRoute.BuildFailureIsServerError | backend/app.py:171-179 | A fresh upload whose build raises answers 500 with the index error, removes the saved file and leaves the cache as it was |
| UploadRoute.StoredNameExtension | backend/app.py:148-155 | The stored name is the UUID plus the name's last four characters, except that a base name of only dots before `.pdf` is stored as the bare UUID |
| UploadRoute.UploadConsistent | backend/app.py:171-179 | Uploading preserves the cache/disk consistency invariant |
| ChatRoute.AssembleContext | backend/app.py:219-228 | The context is absent (short-circuit) exactly when every retrieved chunk is whitespace-only, none included; otherwise it is the joined chunks cut to the limit, at most limit + marker long, and not blank |
| ChatRoute.ChatWithPdf | backend/app.py:195-242 | 400 exactly for a missing or empty question or pdf_id; 404 exactly when the id is neither cached nor loadable, with nothing changed; chatting never builds or touches disk and caches at most the requested id; past validation the store is exactly what the lookup left, so retrieval and the model call change nothing; the model is asked only when some retrieved chunk has a non-whitespace character, and then at the fixed URL with model meta-llama-3.1-8b-instruct and temperature 0.0, the chat system prompt and the assembled context; all-blank retrieval gives 200 with the fixed answer and no model call; a found document with some non-blank chunk gives 500 without an API key, and otherwise is sent to the model and answered with 200 and the model's reply, or the apology when the call fails; 500 only for a missing API key |
| ChatRoute.ContextTruncation | backend/app.py:227-228 | A joined context longer than 28000 becomes exactly its first 28000 characters followed by the marker (length 28000 + marker); otherwise it is unchanged |
| ChatRoute.ChatConsistent | backend/app.py:206-211 | Chatting preserves the cache/disk consistency invariant |
| ChatRoute.FittingContextUnchanged | backend/app.py:219-228 | A context with a non-blank chunk whose join fits the limit reaches the model exactly as joined, with no marker |
| ChatRoute.RetrievedChunksInOrder | backend/app.py:217-236 | When the joined context fits and some retrieved chunk is not blank, every retrieved chunk, whitespace-only ones included, sits in the model's user turn at the position the join gives it, in rank order |
| WipeRoute.ClearFolder | backend/app.py:323-331 | One folder block adds one success if the folder exists and both `rmtree` and `makedirs` succeed, one error if it exists and either raises, and nothing if it does not exist |
| WipeRoute.Deletions | backend/app.py:319-385 | The deleted list names each removed and recreated folder once per block handling it (the vector-store folder twice, the repeated block meeting it as the first left it), and the cache once if it held anything |
| WipeRoute.DeletedCount | backend/app.py:319-385 | Each entry occurs in the deleted list as often as the blocks handling it succeed, and the cache entry exactly when the cache held something |
| WipeRoute.Failures | backend/app.py:319-385 | The error list names a folder once if `rmtree` succeeded but `makedirs` raised (the repeated block then finds no folder), once per block handling it if `rmtree` raised, and is empty exactly when no existing folder failed |
| WipeRoute.FailedCount | backend/app.py:319-385 | Each folder occurs in the error list as often as the blocks handling it fail, given that a later block meets the folder as the earlier one left it |
| WipeRoute.RepeatedBlock | backend/app.py:334-361 | The repeated vector-store block succeeds exactly when the first did, and fails again exactly when the first block's `rmtree` raised |
| WipeRoute.DeleteAllData | backend/app.py:313-391 | Every block is attempted whatever failed before; a missing folder contributes neither item nor error; the cache ends empty and is listed only if it was non-empty; the status is 500 exactly when errors is non-empty, else 200; a folder whose `rmtree` succeeded ends empty even if recreating it raised, and the others are untouched |
| WipeRoute.CleanWipeReport | backend/app.py:322-391 | When every folder exists and is removed, the report is 200 with the vector-store item listed twice and no errors |
| WipeRoute.WipeThenLookupNotFound | backend/app.py:349-369 | After a wipe that removed the vector-store folder's contents, a chunk-less lookup of any id raises NotFound |
| WipeRoute.FailedWipeReloads | backend/app.py:349-369 | If the vector-store folder's contents were not removed, a non-empty collection is loaded again after the cache was cleared |
| WipeRoute.WipeThenReupload | backend/app.py:136-186 | After a wipe that removed the vector-store folder's contents, re-uploading a readable document succeeds and indexes it afresh from its chunks |
| WipeRoute.RecreateFailureReportedOnce | backend/app.py:333-361 | A vector-store folder removed but not recreated is reported as one error and no success, gives 500, and its collections are gone |
| WipeRoute.RemoveFailureReportedTwice | backend/app.py:333-361 | A vector-store folder whose `rmtree` raises is reported as an error by both blocks, gives 500, and keeps its collections |
| WipeRoute.WipeConsistent | backend/app.py:363-366 | Wiping preserves the cache/disk consistency invariant |
| LlmService.UserContent | backend/llm_service.py:41-45 | With an empty context the user turn is the question verbatim; otherwise it is the lead-in, then the context verbatim, then the question prompt and the question |
| LlmService.Messages | backend/llm_service.py:37-45 | The message list has exactly two entries: the system prompt first, the user turn second |
| LlmService.GetLlmResponse | backend/llm_service.py:25-57 | A missing or empty API key raises before any request is sent; otherwise the request goes to the fixed URL with model meta-llama-3.1-8b-instruct and temperature 0.0, and the answer is the completion's content, or the fixed apology if the call fails |
| LlmService.JoinedPartReachesUser | backend/llm_service.py:42-43 | Each part of a non-empty joined context appears unchanged in the user turn, at the lead-in's length plus its join offset |
| LlmService.ContextReachesModel | backend/llm_service.py:42-43 | With a non-empty context and a key, the request's user turn holds the context right after the lead-in and ends with the question |
| Text.IsSpace | backend/app.py:223 | The whitespace class of `strip`: among ASCII characters exactly space, tab, line feed, vertical tab, form feed, carriage return and 0x1C-0x1F, and no printable character other than the space |
| Text.Strip | backend/app.py:223 | strip() is empty exactly when every character is whitespace; otherwise it starts and ends with non-whitespace; it is the slice beginning at the first non-whitespace character, with only whitespace before and after it |
| Text.JoinLength | backend/app.py:220 | The joined length is the total length of the parts plus one separator between consecutive parts |
| Text.JoinPlacesParts | backend/app.py:220 | Each part appears unchanged in the joined string at its offset, in order |
| Text.JoinPlacesSeparators | backend/app.py:220 | Exactly one separator lies between consecutive parts |
| Text.JoinBlank | backend/app.py:220-223 | With a whitespace separator, the joined string is blank exactly when every part is blank |
| Text.Truncate | backend/app.py:227-228 | A string no longer than the limit is returned unchanged; a longer one becomes its first `limit` characters followed by the marker, so its length is limit + marker |
| Text.TruncateIdempotent | backend/app.py:227-228 | Cutting an already cut context changes nothing |
| Text.Lower | backend/app.py:148 | Lower-casing keeps the length and maps each character on its own, ASCII capitals to their small letters |
| Text.PdfExtensionByCase | backend/app.py:148 | The file-type test accepts exactly the names whose last four characters are `.pdf` in any letter case |
| Text.SplitExt | backend/app.py:153 | The extension is a suffix of the name, either empty or a single dot followed by no dot and no slash; a non-empty extension starts at the last dot of the last path component and something other than dots precedes it there; an empty extension means every dot in the last component has only dots before it |
| Text.PdfSplitExt | backend/app.py:148-153 | For a name ending in `.pdf`, the extension is those four characters unless the base name before them is only dots, in which case it is empty |
| MainBackend.ProcessPdfChatAsWritten | backend/main_backend.py:29-36 | As written, empty text returns the fixed apology, and any non-empty text raises the splitter's TypeError before any model call |
| MainBackend.SplitterCallAlwaysRaises | backend/main_backend.py:36 | For every non-empty text the as-written function raises TypeError and sends nothing, while the corrected pipeline sends a request |
| MainBackend.ProcessPdfChat | backend/main_backend.py:14-69 | Empty text returns the fixed apology with no model call; otherwise a request is sent exactly when the key is present, at the fixed URL with model meta-llama-3.1-8b-instruct and temperature 0.0, the backend system prompt and all chunks joined and cut at 20000; without a key the missing-key error is raised; once sent, the model's reply, or the apology for a failed call, is returned unchanged |
| MainBackend.AllChunksReachModel | backend/main_backend.py:45-47 | With no selection, when the joined document fits, every chunk reaches the model in document order at its join offset |
| MainBackend.FittingContextSent | backend/main_backend.py:45-58 | With text, a key and a joined document that fits, the request is sent and its user turn carries the joined chunks unchanged |
| MainBackend.ContextBound | backend/main_backend.py:55-58 | The user turn never exceeds lead-in + 20000 + marker + question prompt + question characters |
| MainBackend.NoChunksSendsBareQuestion | backend/main_backend.py:47 | With no chunks the context is empty and the model receives the bare question |

## Findings

| source | as written | input that shows it | evidently intended | confidence | as-written member | corrected member |
|---|---|---|---|---|---|---|
| backend/main_backend.py:36 | `split_text_into_sections(full_pdf_text, max_length=1000)`, but the function (backend/pdf_processing.py:18) takes only `text`, so the call raises TypeError | any non-empty PDF text | split the text, join all chunks and ask the model | high; not executed | MainBackend.ProcessPdfChatAsWritten | MainBackend.ProcessPdfChat |

## Left out

- Frontend (frontend/src): UI only.
- backend/embeddingWrapper.py and the embedding vectors: the build is one outcome, `BuildOk` or `BuildFails`.
- backend/pdf_processing.py: text extraction and the chunk splitter are inputs (`text`, `chunks`); chunk size and overlap are not modelled.
- ChromaDB internals and similarity ranking: `similarity_search(question, k=5)` is the parameter `search`. The model does not assume it returns at most five chunks.
- Concurrency: the cache is a plain dict with no lock, so no build-once guarantee is claimed.
- The commented-out `delete_pdf` route (backend/app.py:246-309) is dead code and is not modelled.
- Left to Flask and the environment:
  - `serve_pdf`;
  - loading environment keys at import (backend/app.py:42-50);
  - logging and tracebacks.
- ChatRoute.ChatWithPdf: an exception raised by `similarity_search` is not caught by the route and ends in Flask's generic 500; it is not modelled. A missing JSON body and non-string JSON values for `question` or `pdf_id` are also left out; the fields are optional strings.
- UploadRoute.UploadPdf: assumes `os.remove` of the just-saved file succeeds. An exception from it, or from the splitter, reaches the route's outer handler (500, file kept) and is not modelled.
- WipeRoute.DeleteAllData: a failed `rmtree` is modelled as leaving the folder's contents as they were; partial deletion is not modelled. The second vector-store block's `rmtree` and `makedirs` behave as the first block's did on the same folder.
- Text.Lower: case mapping is ASCII-only. This is enough for the `.pdf` test, because no other character lower-cases to `.`, `p`, `d` or `f`. Python's full Unicode `lower()` is not modelled.
- Strings are sequences of Unicode scalar values. Python strings may also hold lone surrogates, which are not modelled.
- `LlmService.GetLlmResponse`: a completion whose content is `None` is not modelled; the content is a string.

=== FILE: backend.dfy ===
/** The server's mutable state: the vector stores (cache and on-disk
    catalogue) and the names of the files in the upload folder. */
module Backend {
  import VectorStore

  datatype Server = Server(store: VectorStore.State, uploads: set<string>)
}

=== FILE: chat_route.dfy ===
/** The `/chat` route: validate the request, look the document's vector
    store up without chunks (404 on failure), join the retrieved chunks
    into a context, answer a fixed sentence when that context is blank,
    otherwise cut it to the character limit and ask the model. Similarity
    search and the completion call are parameters. */
module ChatRoute {
  import opened Wrappers
  import opened Http
  import opened Text
  import VectorStore
  import LlmService

  /** Largest context handed to the model, in characters. */
  const MAX_CONTEXT_CHAR_LIMIT: nat := 28000

  /** Separator between retrieved chunks. */
  const CHUNK_SEPARATOR: string := "\n\n"

  /** Answer given, with status 200, when no usable context was retrieved. */
  const NO_CONTEXT_ANSWER: string := "Leider konnte ich im Dokument keine relevanten Informationen zu Ihrer Frage finden."

  const CHAT_SYSTEM_PROMPT: string := "Du bist ein KI-Assistent, der Fragen pr\U{E4}zise und wahrheitsgem\U{E4}\U{DF} basierend auf dem bereitgestellten Dokument beantwortet. Beschr\U{E4}nke deine Antworten auf die Informationen im Dokument. Wenn die Antwort nicht im Dokument ist, sage das klar und deutlich. Wenn du keine relevanten Informationen hast, sage das ebenfalls."

  /** The JSON fields `question` and `pdf_id`; `None` when absent. */
  datatype ChatRequest = ChatRequest(question: Option<string>, pdfId: Option<string>)

  datatype ChatError = MissingField | DocumentNotFound | ModelUnavailable

  datatype ChatBody = Answer(text: string) | Failed(error: ChatError)

  /** Status, body, and the request sent to the model, if one was. */
  datatype ChatResponse = ChatResponse(status: int, body: ChatBody, sent: Option<LlmService.Request>)

  datatype ChatResult = ChatResult(response: ChatResponse, store: VectorStore.State)

  /** Python's truthiness of a string field: present and non-empty. */
  predicate Given(field: Option<string>) {
    field.Some? && field.value != []
  }

  /** The context for the model built from the retrieved chunks: `None`
      when the joined chunks are blank (the short-circuit), otherwise the
      joined chunks cut to `limit` characters plus the marker. */
  function AssembleContext(chunks: seq<string>, limit: nat): (c: Option<string>)
    ensures c.None? <==> forall i :: 0 <= i < |chunks| ==> IsBlank(chunks[i])
    ensures c.Some? ==> |c.value| <= limit + |TRUNCATION_MARKER|
    ensures c.Some? ==> c.value == Truncate(Join(chunks, CHUNK_SEPARATOR), limit)
    ensures c.Some? ==> !IsBlank(c.value)
  {
    var joined := Join(chunks, CHUNK_SEPARATOR);
    JoinBlank(chunks, CHUNK_SEPARATOR);
    if Strip(joined) == [] then None
    else
      var c := Truncate(joined, limit);
      assert !IsBlank(c) by {
        if |joined| > limit {
          var k :| 0 <= k < |joined| && !IsSpace(joined[k]);
          if k < limit {
            assert c[k] == joined[k];
          } else {
            assert c[|c| - 1] == ']';
          }
        }
      }
      Some(c)
  }

  /** The route's vector-store lookup: by `pdf_id`, with no chunks, so it
      can load but never build. */
  function ChatLookup(store: VectorStore.State, req: ChatRequest, loadRaises: bool): VectorStore.Lookup
    requires req.pdfId.Some?
  {
    VectorStore.GetOrCreate(store, req.pdfId.value, None, VectorStore.Env(loadRaises, VectorStore.BuildOk))
  }

  function ChatWithPdf(store: VectorStore.State, req: ChatRequest, loadRaises: bool,
                       search: (VectorStore.Handle, string) -> seq<string>,
                       apiKey: Option<string>, complete: LlmService.Request -> LlmService.Completion): (r: ChatResult)
    ensures r.response.status in {OK, BAD_REQUEST, NOT_FOUND, SERVER_ERROR}
    // 400 exactly when a field is missing or empty; nothing else happens.
    ensures r.response.status == BAD_REQUEST <==> !(Given(req.question) && Given(req.pdfId))
    ensures r.response.status == BAD_REQUEST ==> r.store == store && r.response.sent.None?
    // 404 exactly when the document is neither cached nor loadable.
    ensures Given(req.question) && Given(req.pdfId) ==>
      (r.response.status == NOT_FOUND <==>
        req.pdfId.value !in store.cache && (loadRaises || !VectorStore.OnDisk(store.disk, req.pdfId.value)))
    ensures r.response.status == NOT_FOUND ==> r.store == store && r.response.sent.None?
    // Chatting never builds: the on-disk catalogue is untouched and the
    // cache can only gain the requested document.
    ensures r.store.disk == store.disk
    ensures store.cache.Keys <= r.store.cache.Keys
    ensures Given(req.pdfId) ==> r.store.cache.Keys <= store.cache.Keys + {req.pdfId.value}
    // The model is asked only once the document was found and some
    // retrieved chunk has a non-whitespace character; the request then goes
    // to the fixed endpoint and model at temperature 0.0, with the chat
    // system prompt and the assembled context.
    ensures r.response.sent.Some? ==>
      var h := ChatLookup(store, req, loadRaises).result;
      && Given(req.question) && Given(req.pdfId) && h.Ok?
      && (exists i :: 0 <= i < |search(h.value, req.question.value)| && !IsBlank(search(h.value, req.question.value)[i]))
      && r.response.sent.value.baseUrl == LlmService.BASE_URL
      && r.response.sent.value.model == LlmService.MODEL
      && r.response.sent.value.temperature == 0.0
      && r.response.sent.value.messages ==
           LlmService.Messages(CHAT_SYSTEM_PROMPT, AssembleContext(search(h.value, req.question.value), MAX_CONTEXT_CHAR_LIMIT).value, req.question.value)
    // Found, but every retrieved chunk blank (or none retrieved): 200 with
    // the fixed answer and no model call.
    ensures Given(req.question) && Given(req.pdfId) ==>
      var h := ChatLookup(store, req, loadRaises).result;
      h.Ok? && (forall i :: 0 <= i < |search(h.value, req.question.value)| ==> IsBlank(search(h.value, req.question.value)[i])) ==>
        r.response == ChatResponse(OK, Answer(NO_CONTEXT_ANSWER), None)
    // Found, with some non-blank chunk: without an API key the answer is
    // 500; with one, the model is asked and its reply (or the apology for
    // a failed call) is the 200 answer.
    ensures Given(req.question) && Given(req.pdfId) ==>
      var h := ChatLookup(store, req, loadRaises).result;
      h.Ok? && (exists i :: 0 <= i < |search(h.value, req.question.value)| && !IsBlank(search(h.value, req.question.value)[i])) ==>
        && (LlmService.KeyMissing(apiKey) ==> r.response == ChatResponse(SERVER_ERROR, Failed(ModelUnavailable), None))
        && (!LlmService.KeyMissing(apiKey) ==>
              && r.response.status == OK
              && r.response.sent.Some?
              && var c := complete(r.response.sent.value);
              r.response.body == Answer(if c.Completed? then c.content else LlmService.APOLOGY))
    // Past validation, the store is exactly what the lookup left: retrieval
    // and the model call change nothing.
    ensures Given(req.question) && Given(req.pdfId) ==> r.store == ChatLookup(store, req, loadRaises).state
    // 500 only when the model was unreachable for lack of an API key.
    ensures r.response.status == SERVER_ERROR ==> LlmService.KeyMissing(apiKey) && r.response.sent.None?
  {
    if !Given(req.question) || !Given(req.pdfId) then
      ChatResult(ChatResponse(BAD_REQUEST, Failed(MissingField), None), store)
    else
      var question := req.question.value;
      var lookup := ChatLookup(store, req, loadRaises);
      if lookup.result.Err? then
        ChatResult(ChatResponse(NOT_FOUND, Failed(DocumentNotFound), None), lookup.state)
      else
        var retrieved := search(lookup.result.value, question);
        match AssembleContext(retrieved, MAX_CONTEXT_CHAR_LIMIT)
        case None =>
          ChatResult(ChatResponse(OK, Answer(NO_CONTEXT_ANSWER), None), lookup.state)
        case Some(context) =>
          var reply := LlmService.GetLlmResponse(question, CHAT_SYSTEM_PROMPT, context, apiKey, complete);
          match reply.answer
          case Ok(answer) => ChatResult(ChatResponse(OK, Answer(answer), reply.sent), lookup.state)
          case Err(_) => ChatResult(ChatResponse(SERVER_ERROR, Failed(ModelUnavailable), None), lookup.state)
  }

  /** A context over the limit reaches the model as exactly its first
      28000 characters followed by the marker; a shorter one unchanged. */
  lemma ContextTruncation(chunks: seq<string>)
    requires exists i :: 0 <= i < |chunks| && !IsBlank(chunks[i])
    ensures var joined := Join(chunks, CHUNK_SEPARATOR);
      var c := AssembleContext(chunks, MAX_CONTEXT_CHAR_LIMIT);
      && c.Some?
      && (|joined| > MAX_CONTEXT_CHAR_LIMIT ==>
            c.value == joined[..MAX_CONTEXT_CHAR_LIMIT] + TRUNCATION_MARKER
            && |c.value| == MAX_CONTEXT_CHAR_LIMIT + |TRUNCATION_MARKER|)
      && (|joined| <= MAX_CONTEXT_CHAR_LIMIT ==> c.value == joined)
  {
    var joined := Join(chunks, CHUNK_SEPARATOR);
    var c := Truncate(joined, MAX_CONTEXT_CHAR_LIMIT);
    if |joined| > MAX_CONTEXT_CHAR_LIMIT {
      assert c == c[..MAX_CONTEXT_CHAR_LIMIT] + c[MAX_CONTEXT_CHAR_LIMIT..];
    }
  }

  /** The retrieved chunks reach the model in rank order: when the joined
      context fits the limit and some chunk `j` is not blank, every chunk
      `i`, whitespace-only ones included, sits in the user turn right where
      the join placed it, after the lead-in. */
  lemma RetrievedChunksInOrder(chunks: seq<string>, question: string, i: nat, j: nat)
    requires i < |chunks|
    requires j < |chunks| && !IsBlank(chunks[j])
    requires |Join(chunks, CHUNK_SEPARATOR)| <= MAX_CONTEXT_CHAR_LIMIT
    ensures var c := AssembleContext(chunks, MAX_CONTEXT_CHAR_LIMIT);
      var user := LlmService.UserContent(question, c.value);
      var at := |LlmService.CONTEXT_INTRO| + Offset(chunks, CHUNK_SEPARATOR, i);
      && c.Some?
      && at + |chunks[i]| <= |user|
      && user[at..at + |chunks[i]|] == chunks[i]
  {
    FittingContextUnchanged(chunks, j);
    LlmService.JoinedPartReachesUser(question, chunks, CHUNK_SEPARATOR, i);
  }

  /** Chatting keeps every cached handle backed by a non-empty collection:
      the lookup's load path is the only way it changes the cache. */
  lemma ChatConsistent(store: VectorStore.State, req: ChatRequest, loadRaises: bool,
                       search: (VectorStore.Handle, string) -> seq<string>,
                       apiKey: Option<string>, complete: LlmService.Request -> LlmService.Completion)
    requires VectorStore.Consistent(store)
    ensures VectorStore.Consistent(ChatWithPdf(store, req, loadRaises, search, apiKey, complete).store)
  {
    if Given(req.question) && Given(req.pdfId) {
      VectorStore.GetOrCreateConsistent(store, req.pdfId.value, None, VectorStore.Env(loadRaises, VectorStore.BuildOk));
    }
  }

  /** A context that fits is handed on exactly as joined. */
  lemma FittingContextUnchanged(chunks: seq<string>, i: nat)
    requires i < |chunks| && !IsBlank(chunks[i])
    requires |Join(chunks, CHUNK_SEPARATOR)| <= MAX_CONTEXT_CHAR_LIMIT
    ensures AssembleContext(chunks, MAX_CONTEXT_CHAR_LIMIT) == Some(Join(chunks, CHUNK_SEPARATOR))
    ensures Join(chunks, CHUNK_SEPARATOR) != []
  {
  }
}

=== FILE: http.dfy ===
/** The HTTP status codes the Flask routes answer with. */
module Http {

  const OK: int := 200
  const BAD_REQUEST: int := 400
  const NOT_FOUND: int := 404
  const SERVER_ERROR: int := 500
}

=== FILE: llm_service.dfy ===
/** The generation client (`get_llm_response`): builds the two-message chat
    request, refuses to run without an API key, and turns a failed
    completion call into a fixed apology. The HTTP call itself is the
    parameter `complete`, a function from the request sent to its outcome. */
module LlmService {
  import opened Wrappers
  import opened Text

  const BASE_URL: string := "https://chat-ai.academiccloud.de/v1"
  const MODEL: string := "meta-llama-3.1-8b-instruct"
  const TEMPERATURE: real := 0.0
  const APOLOGY: string := "Entschuldigung, es gab ein Problem bei der Kommunikation mit dem KI-Modell."
  const CONTEXT_INTRO: string := "Basierend auf dem folgenden Textabschnitt:\n\n"
  const QUESTION_INTRO: string := "\n\nAntworte auf die Frage: "

  datatype Role = System | User
  datatype Message = Message(role: Role, content: string)

  /** What is handed to the completion endpoint. */
  datatype Request = Request(baseUrl: string, model: string, temperature: real, messages: seq<Message>)

  /** Outcome of the completion call: the first choice's content, or an
      exception raised by the client. */
  datatype Completion = Completed(content: string) | CallFailed

  /** The `ValueError` raised when `GWDG_LLM_API_KEY` is unset or empty. */
  datatype LlmError = MissingApiKey

  /** The answer (or the raised error) and the request sent, if any. */
  datatype Reply = Reply(answer: Result<string, LlmError>, sent: Option<Request>)

  /** Python's `not api_key` for the value of an environment variable. */
  predicate KeyMissing(apiKey: Option<string>) {
    apiKey.None? || apiKey.value == []
  }

  /** The user turn: the question alone without context, otherwise the
      context framed by the fixed German lead-in and question prompt. */
  function UserContent(question: string, context: string): (c: string)
    ensures context == [] ==> c == question
    ensures context != [] ==>
      && |c| == |CONTEXT_INTRO| + |context| + |QUESTION_INTRO| + |question|
      && c[..|CONTEXT_INTRO|] == CONTEXT_INTRO
      && c[|CONTEXT_INTRO|..|CONTEXT_INTRO| + |context|] == context
      && EndsWith(c, QUESTION_INTRO + question)
  {
    if context != [] then
      var c := CONTEXT_INTRO + context + (QUESTION_INTRO + question);
      assert c == CONTEXT_INTRO + (context + (QUESTION_INTRO + question));
      c
    else question
  }

  /** Any stretch of a non-empty context lies in the user turn at the same
      position, shifted by the lead-in. */
  lemma ContextStretch(question: string, context: string, o: nat, len: nat)
    requires context != [] && o + len <= |context|
    ensures var n := |CONTEXT_INTRO|;
      && n + o + len <= |UserContent(question, context)|
      && UserContent(question, context)[n + o..n + o + len] == context[o..o + len]
  {
    var c := UserContent(question, context);
    var n := |CONTEXT_INTRO|;
    SliceOfSlice(c, n, n + |context|, o, o + len);
  }

  /** A part of a joined context lies in the user turn at its join offset,
      shifted by the lead-in. */
  lemma JoinedPartReachesUser(question: string, parts: seq<string>, sep: string, i: nat)
    requires i < |parts| && Join(parts, sep) != []
    ensures var at := |CONTEXT_INTRO| + Offset(parts, sep, i);
      && at + |parts[i]| <= |UserContent(question, Join(parts, sep))|
      && UserContent(question, Join(parts, sep))[at..at + |parts[i]|] == parts[i]
  {
    JoinPlacesParts(parts, sep, i);
    ContextStretch(question, Join(parts, sep), Offset(parts, sep, i), |parts[i]|);
  }

  /** The message list: the system prompt first, the user turn second. */
  function Messages(systemPrompt: string, context: string, question: string): (m: seq<Message>)
    ensures |m| == 2
    ensures m[0] == Message(System, systemPrompt)
    ensures m[1] == Message(User, UserContent(question, context))
  {
    [Message(System, systemPrompt), Message(User, UserContent(question, context))]
  }

  function GetLlmResponse(question: string, systemPrompt: string, context: string,
                          apiKey: Option<string>, complete: Request -> Completion): (r: Reply)
    ensures r.answer.Err? <==> KeyMissing(apiKey)
    ensures r.sent.None? <==> KeyMissing(apiKey)
    ensures r.sent.Some? ==>
      && r.sent.value.baseUrl == BASE_URL
      && r.sent.value.model == MODEL
      && r.sent.value.temperature == 0.0
      && r.sent.value.messages == Messages(systemPrompt, context, question)
    ensures r.answer.Ok? && complete(r.sent.value).Completed? ==> r.answer.value == complete(r.sent.value).content
    ensures r.answer.Ok? && complete(r.sent.value).CallFailed? ==> r.answer.value == APOLOGY
  {
    if KeyMissing(apiKey) then Reply(Err(MissingApiKey), None)
    else
      var request := Request(BASE_URL, MODEL, TEMPERATURE, Messages(systemPrompt, context, question));
      match complete(request)
      case Completed(content) => Reply(Ok(content), Some(request))
      case CallFailed => Reply(Ok(APOLOGY), Some(request))
  }

  /** The model sees the context verbatim: with a non-empty context, the
      user turn of every request sent holds it right after the lead-in,
      and ends with the question. */
  lemma ContextReachesModel(question: string, systemPrompt: string, context: string,
                            apiKey: Option<string>, complete: Request -> Completion)
    requires context != [] && !KeyMissing(apiKey)
    ensures var r := GetLlmResponse(question, systemPrompt, context, apiKey, complete);
      && r.sent.Some?
      && var user := r.sent.value.messages[1].content;
      && user[|CONTEXT_INTRO|..|CONTEXT_INTRO| + |context|] == context
      && EndsWith(user, question)
  {
    var user := UserContent(question, context);
    assert EndsWith(user, QUESTION_INTRO + question);
    assert user[|user| - |question|..] == (QUESTION_INTRO + question)[|QUESTION_INTRO|..];
  }
}

=== FILE: main_backend.dfy ===
/** `process_pdf_chat`, the older end-to-end pipeline: no retrieval, every
    chunk of the document is joined into the context, which is cut at
    20000 characters. Text extraction, chunking and the completion call
    are parameters. */
module MainBackend {
  import opened Wrappers
  import opened Text
  import LlmService

  const MAX_CONTEXT_CHAR_LIMIT: nat := 20000

  const CHUNK_SEPARATOR: string := "\n\n"

  /** Returned, without chunking or a model call, for an empty document. */
  const UNREADABLE_ANSWER: string := "Entschuldigung, konnte das PDF nicht lesen oder es ist leer."

  const BACKEND_SYSTEM_PROMPT: string := "Du bist ein KI-Assistent, der Fragen basierend auf den bereitgestellten Dokumenten beantwortet. Antworte pr\U{E4}zise und nur mit Informationen aus dem Dokument, falls zutreffend."

  /** What the function raises: the splitter call's `TypeError`, or the
      generation client's missing-key error. */
  datatype ProcessError = SplitterTypeError | LlmFailed(error: LlmService.LlmError)

  /** The answer (or the raised error) and the request sent, if any. */
  datatype Processed = Processed(answer: Result<string, ProcessError>, sent: Option<LlmService.Request>)

  /** The function as written: it passes `max_length=1000` to a splitter
      that takes only the text, so every non-empty document raises
      `TypeError` before any context is built. */
  function ProcessPdfChatAsWritten(text: string, question: string, apiKey: Option<string>,
                                   complete: LlmService.Request -> LlmService.Completion): (r: Processed)
    ensures text == [] ==> r == Processed(Ok(UNREADABLE_ANSWER), None)
    ensures text != [] ==> r == Processed(Err(SplitterTypeError), None)
  {
    if text == [] then Processed(Ok(UNREADABLE_ANSWER), None)
    else Processed(Err(SplitterTypeError), None)
  }

  /** The pipeline as intended, with `chunks` the splitter's output for
      `text`: empty text gets the fixed apology; otherwise all chunks,
      joined in order and cut at the limit, go to the model, and its reply
      is returned unchanged. */
  function ProcessPdfChat(text: string, chunks: seq<string>, question: string, apiKey: Option<string>,
                          complete: LlmService.Request -> LlmService.Completion): (r: Processed)
    ensures text == [] ==> r == Processed(Ok(UNREADABLE_ANSWER), None)
    ensures text != [] ==> (r.sent.Some? <==> !LlmService.KeyMissing(apiKey))
    ensures text != [] && LlmService.KeyMissing(apiKey) ==> r.answer == Err(LlmFailed(LlmService.MissingApiKey))
    // The request goes to the fixed endpoint and model at temperature 0.0.
    ensures r.sent.Some? ==>
      && r.sent.value.baseUrl == LlmService.BASE_URL
      && r.sent.value.model == LlmService.MODEL
      && r.sent.value.temperature == 0.0
      && |r.sent.value.messages| == 2
      && r.sent.value.messages[0] == LlmService.Message(LlmService.System, BACKEND_SYSTEM_PROMPT)
      && r.sent.value.messages[1] == LlmService.Message(LlmService.User,
           LlmService.UserContent(question, Truncate(Join(chunks, CHUNK_SEPARATOR), MAX_CONTEXT_CHAR_LIMIT)))
    // Once a request was sent, the model's reply (or the apology for a
    // failed call) is returned unchanged.
    ensures r.sent.Some? ==>
      var c := complete(r.sent.value);
      r.answer == Ok(if c.Completed? then c.content else LlmService.APOLOGY)
  {
    if text == [] then Processed(Ok(UNREADABLE_ANSWER), None)
    else
      var context := Truncate(Join(chunks, CHUNK_SEPARATOR), MAX_CONTEXT_CHAR_LIMIT);
      var reply := LlmService.GetLlmResponse(question, BACKEND_SYSTEM_PROMPT, context, apiKey, complete);
      match reply.answer
      case Ok(answer) => Processed(Ok(answer), reply.sent)
      case Err(e) => Processed(Err(LlmFailed(e)), reply.sent)
  }

  /** As written, no non-empty document ever reaches the model. */
  lemma SplitterCallAlwaysRaises(text: string, question: string, apiKey: Option<string>,
                                 complete: LlmService.Request -> LlmService.Completion)
    requires text != [] && !LlmService.KeyMissing(apiKey)
    ensures ProcessPdfChatAsWritten(text, question, apiKey, complete).answer == Err(SplitterTypeError)
    ensures ProcessPdfChatAsWritten(text, question, apiKey, complete).sent.None?
    ensures ProcessPdfChat(text, [text], question, apiKey, complete).sent.Some?
  {
  }

  /** Without selection: when the joined document fits the limit, every
      chunk reaches the model, in document order, at the position the join
      gives it after the lead-in. */
  lemma AllChunksReachModel(text: string, chunks: seq<string>, question: string, apiKey: Option<string>,
                            complete: LlmService.Request -> LlmService.Completion, i: nat)
    requires text != [] && !LlmService.KeyMissing(apiKey)
    requires i < |chunks| && |Join(chunks, CHUNK_SEPARATOR)| <= MAX_CONTEXT_CHAR_LIMIT
    requires Join(chunks, CHUNK_SEPARATOR) != []
    ensures var r := ProcessPdfChat(text, chunks, question, apiKey, complete);
      var user := r.sent.value.messages[1].content;
      var at := |LlmService.CONTEXT_INTRO| + Offset(chunks, CHUNK_SEPARATOR, i);
      && r.sent.Some?
      && at + |chunks[i]| <= |user|
      && user[at..at + |chunks[i]|] == chunks[i]
  {
    FittingContextSent(text, chunks, question, apiKey, complete);
    LlmService.JoinedPartReachesUser(question, chunks, CHUNK_SEPARATOR, i);
  }

  /** A joined document that fits is sent without a cut. */
  lemma FittingContextSent(text: string, chunks: seq<string>, question: string, apiKey: Option<string>,
                           complete: LlmService.Request -> LlmService.Completion)
    requires text != [] && !LlmService.KeyMissing(apiKey)
    requires |Join(chunks, CHUNK_SEPARATOR)| <= MAX_CONTEXT_CHAR_LIMIT
    ensures var r := ProcessPdfChat(text, chunks, question, apiKey, complete);
      && r.sent.Some?
      && r.sent.value.messages[1].content == LlmService.UserContent(question, Join(chunks, CHUNK_SEPARATOR))
  {
  }

  /** A context over the limit is cut to its first 20000 characters plus
      the marker, so the user turn has a fixed bound. */
  lemma ContextBound(text: string, chunks: seq<string>, question: string, apiKey: Option<string>,
                     complete: LlmService.Request -> LlmService.Completion)
    requires text != [] && !LlmService.KeyMissing(apiKey)
    ensures var r := ProcessPdfChat(text, chunks, question, apiKey, complete);
      && r.sent.Some?
      && |r.sent.value.messages[1].content| <=
           |LlmService.CONTEXT_INTRO| + MAX_CONTEXT_CHAR_LIMIT + |TRUNCATION_MARKER| + |LlmService.QUESTION_INTRO| + |question|
  {
  }

  /** Unlike the chat route, this pipeline has no blank-context guard: a
      document that splits into no chunks sends the bare question. */
  lemma NoChunksSendsBareQuestion(text: string, question: string, apiKey: Option<string>,
                                  complete: LlmService.Request -> LlmService.Completion)
    requires text != [] && !LlmService.KeyMissing(apiKey)
    ensures var r := ProcessPdfChat(text, [], question, apiKey, complete);
      r.sent.Some? && r.sent.value.messages[1].content == question
  {
  }
}

=== FILE: text.dfy ===
/** The Python string operations the backend relies on, over strings of
    code points: `str.isspace`/`str.strip`, `sep.join`, slicing with a
    truncation marker, `str.lower().endswith` and `os.path.splitext`. */
module Text {

  /** Python's `str.isspace` character class (Unicode whitespace). Among
      ASCII characters it holds for the space, tab, line feed, vertical
      tab, form feed, carriage return and the four information separators
      0x1C-0x1F, and for nothing printable except the space. */
  predicate IsSpace(c: char): (b: bool)
    ensures c < '\U{80}' ==>
      (b <==> c == ' ' || c == '\t' || c == '\n' || c == '\U{0B}' || c == '\U{0C}' || c == '\r' || '\U{1C}' <= c <= '\U{1F}')
    ensures '!' <= c <= '~' ==> !b
  {
    || c == ' '
    || ('\t' <= c <= '\r')
    || ('\U{1C}' <= c <= '\U{1F}')
    || c == '\U{85}' || c == '\U{A0}' || c == '\U{1680}'
    || ('\U{2000}' <= c <= '\U{200A}')
    || c == '\U{2028}' || c == '\U{2029}' || c == '\U{202F}'
    || c == '\U{205F}' || c == '\U{3000}'
  }

  /** Every character is whitespace (the empty string included). */
  predicate IsBlank(s: string) {
    forall i :: 0 <= i < |s| ==> IsSpace(s[i])
  }

  lemma BlankConcat(a: string, b: string)
    ensures IsBlank(a + b) <==> IsBlank(a) && IsBlank(b)
  {
    if IsBlank(a) && IsBlank(b) {
      forall i | 0 <= i < |a + b| ensures IsSpace((a + b)[i]) {
        if i < |a| { assert (a + b)[i] == a[i]; } else { assert (a + b)[i] == b[i - |a|]; }
      }
    }
    if IsBlank(a + b) {
      forall i | 0 <= i < |a| ensures IsSpace(a[i]) { assert (a + b)[i] == a[i]; }
      forall i | 0 <= i < |b| ensures IsSpace(b[i]) { assert (a + b)[|a| + i] == b[i]; }
    }
  }

  /** Index of the first non-whitespace character at or after `i`, or
      `|s|` when there is none: where `lstrip` cuts. */
  function SkipSpaces(s: string, i: nat): (k: nat)
    requires i <= |s|
    ensures i <= k <= |s|
    ensures forall j :: i <= j < k ==> IsSpace(s[j])
    ensures k < |s| ==> !IsSpace(s[k])
    decreases |s| - i
  {
    if i == |s| || !IsSpace(s[i]) then i else SkipSpaces(s, i + 1)
  }

  /** End of `s[lo..hi]` once its trailing whitespace is dropped: where
      `rstrip` cuts. */
  function TrimEnd(s: string, lo: nat, hi: nat): (k: nat)
    requires lo <= hi <= |s|
    ensures lo <= k <= hi
    ensures forall j :: k <= j < hi ==> IsSpace(s[j])
    ensures k > lo ==> !IsSpace(s[k - 1])
  {
    if hi == lo || !IsSpace(s[hi - 1]) then hi else TrimEnd(s, lo, hi - 1)
  }

  /** Python's `s.strip()`: the slice from the first to the last
      non-whitespace character, with only whitespace around it. */
  function Strip(s: string): (r: string)
    ensures r == [] <==> IsBlank(s)
    ensures |r| > 0 ==> !IsSpace(r[0]) && !IsSpace(r[|r| - 1])
    ensures SkipSpaces(s, 0) + |r| <= |s|
    ensures r == s[SkipSpaces(s, 0)..SkipSpaces(s, 0) + |r|]
    ensures IsBlank(s[..SkipSpaces(s, 0)]) && IsBlank(s[SkipSpaces(s, 0) + |r|..])
  {
    var a := SkipSpaces(s, 0);
    var b := TrimEnd(s, a, |s|);
    CutsMeetIffBlank(s);
    s[a..b]
  }

  /** Both cuts meet exactly when the whole text is whitespace. */
  lemma CutsMeetIffBlank(s: string)
    ensures var a := SkipSpaces(s, 0);
      TrimEnd(s, a, |s|) == a <==> IsBlank(s)
  {
  }

  /** A slice of a slice is a slice of the original. */
  lemma SliceOfSlice(s: string, a: nat, b: nat, x: nat, y: nat)
    requires a <= b <= |s| && x <= y <= b - a
    ensures s[a..b][x..y] == s[a + x..a + y]
  {
    var lhs := s[a..b][x..y];
    assert |lhs| == y - x;
    forall k | 0 <= k < y - x ensures lhs[k] == s[a + x + k] {
      assert lhs[k] == s[a..b][x + k];
    }
  }

  /** A slice lying in the second half of a concatenation. */
  lemma SliceOfConcat(a: string, b: string, x: nat, y: nat)
    requires |a| <= x <= y <= |a| + |b|
    ensures (a + b)[x..y] == b[x - |a|..y - |a|]
  {
    var lhs := (a + b)[x..y];
    forall k | 0 <= k < y - x ensures lhs[k] == b[x - |a| + k] {
      assert lhs[k] == (a + b)[x + k];
    }
  }

  /** Python's `sep.join(parts)`. */
  function Join(parts: seq<string>, sep: string): string {
    if |parts| == 0 then []
    else if |parts| == 1 then parts[0]
    else parts[0] + sep + Join(parts[1..], sep)
  }

  /** Total number of characters in `parts`. */
  function TotalLength(parts: seq<string>): nat {
    if |parts| == 0 then 0 else |parts[0]| + TotalLength(parts[1..])
  }

  /** Position at which `parts[i]` starts inside `Join(parts, sep)`. */
  function Offset(parts: seq<string>, sep: string, i: nat): nat
    requires i < |parts|
  {
    if i == 0 then 0 else |parts[0]| + |sep| + Offset(parts[1..], sep, i - 1)
  }

  /** The joined string holds every character of every part plus one
      separator between consecutive parts. */
  lemma {:induction false} JoinLength(parts: seq<string>, sep: string)
    ensures |Join(parts, sep)| == TotalLength(parts) + (if |parts| == 0 then 0 else (|parts| - 1) * |sep|)
  {
    if |parts| > 1 {
      JoinLength(parts[1..], sep);
    }
  }

  /** Each part appears, unchanged and in order, at its offset. */
  lemma {:induction false} JoinPlacesParts(parts: seq<string>, sep: string, i: nat)
    requires i < |parts|
    ensures Offset(parts, sep, i) + |parts[i]| <= |Join(parts, sep)|
    ensures Join(parts, sep)[Offset(parts, sep, i)..Offset(parts, sep, i) + |parts[i]|] == parts[i]
  {
    var j := Join(parts, sep);
    if |parts| == 1 {
    } else if i == 0 {
      assert j == parts[0] + (sep + Join(parts[1..], sep));
    } else {
      var tail := Join(parts[1..], sep);
      var o := Offset(parts[1..], sep, i - 1);
      JoinPlacesParts(parts[1..], sep, i - 1);
      var h := parts[0] + sep;
      assert j == h + tail;
      assert Offset(parts, sep, i) == |h| + o;
      SliceOfConcat(h, tail, |h| + o, |h| + o + |parts[i]|);
    }
  }

  /** Consecutive parts are separated by exactly one `sep`. */
  lemma {:induction false} JoinPlacesSeparators(parts: seq<string>, sep: string, i: nat)
    requires i + 1 < |parts|
    ensures Offset(parts, sep, i) + |parts[i]| + |sep| == Offset(parts, sep, i + 1)
    ensures Offset(parts, sep, i + 1) <= |Join(parts, sep)|
    ensures Join(parts, sep)[Offset(parts, sep, i) + |parts[i]|..Offset(parts, sep, i + 1)] == sep
  {
    var j := Join(parts, sep);
    var tail := Join(parts[1..], sep);
    assert j == parts[0] + sep + tail;
    if i == 0 {
      assert j[|parts[0]|..|parts[0]| + |sep|] == sep;
    } else {
      JoinPlacesSeparators(parts[1..], sep, i - 1);
      var h := parts[0] + sep;
      var o := Offset(parts[1..], sep, i - 1);
      var o' := Offset(parts[1..], sep, i);
      assert j == h + tail;
      assert j[|h| + o + |parts[i]|..|h| + o'] == tail[o + |parts[i]|..o'];
    }
  }

  /** With a whitespace separator, the joined text is blank exactly when
      every part is blank (no parts at all included). */
  lemma {:induction false} JoinBlank(parts: seq<string>, sep: string)
    requires IsBlank(sep)
    ensures IsBlank(Join(parts, sep)) <==> forall i :: 0 <= i < |parts| ==> IsBlank(parts[i])
  {
    if |parts| > 1 {
      JoinBlank(parts[1..], sep);
      BlankConcat(parts[0], sep);
      BlankConcat(parts[0] + sep, Join(parts[1..], sep));
      if IsBlank(Join(parts, sep)) {
        forall i | 0 <= i < |parts| ensures IsBlank(parts[i]) {
          if i > 0 { assert parts[i] == parts[1..][i - 1]; }
        }
      }
      if forall i :: 0 <= i < |parts| ==> IsBlank(parts[i]) {
        forall i | 0 <= i < |parts[1..]| ensures IsBlank(parts[1..][i]) {
          assert parts[1..][i] == parts[i + 1];
        }
      }
    }
  }

  /** Appended to a context that was cut at its character limit. */
  const TRUNCATION_MARKER: string := "\n\n[Kontext gek\U{FC}rzt aufgrund der L\U{E4}nge...]"

  /** `s[:limit] + marker` when `s` is longer than `limit`, else `s`. */
  function Truncate(s: string, limit: nat): (r: string)
    ensures |r| <= limit + |TRUNCATION_MARKER|
    ensures |s| <= limit ==> r == s
    ensures |s| > limit ==> |r| == limit + |TRUNCATION_MARKER|
    ensures |s| > limit ==> r[..limit] == s[..limit] && EndsWith(r, TRUNCATION_MARKER)
  {
    if |s| > limit then s[..limit] + TRUNCATION_MARKER else s
  }

  /** Truncating an already truncated context changes nothing. */
  lemma TruncateIdempotent(s: string, limit: nat)
    ensures Truncate(Truncate(s, limit), limit) == Truncate(s, limit)
  {
    var r := Truncate(s, limit);
    if |s| > limit {
      assert r == r[..limit] + r[limit..];
    }
  }

  /** Suffix test, as `str.endswith`. */
  predicate EndsWith(s: string, suffix: string) {
    |suffix| <= |s| && s[|s| - |suffix|..] == suffix
  }

  /** ASCII case folding of one character. */
  function LowerChar(c: char): char {
    if 'A' <= c <= 'Z' then (c as int + 32) as char else c
  }

  /** `str.lower` restricted to ASCII letters. */
  function Lower(s: string): (r: string)
    ensures |r| == |s|
    ensures forall i :: 0 <= i < |s| ==> r[i] == LowerChar(s[i])
  {
    seq(|s|, i requires 0 <= i < |s| => LowerChar(s[i]))
  }

  /** The upload route's file-type test: `name.lower().endswith('.pdf')`. */
  predicate HasPdfExtension(name: string) {
    EndsWith(Lower(name), ".pdf")
  }

  /** The last four characters are `.pdf` in any mix of letter case. */
  predicate PdfSuffix(name: string) {
    && |name| >= 4
    && name[|name| - 4] == '.'
    && (name[|name| - 3] == 'p' || name[|name| - 3] == 'P')
    && (name[|name| - 2] == 'd' || name[|name| - 2] == 'D')
    && (name[|name| - 1] == 'f' || name[|name| - 1] == 'F')
  }

  /** The file-type test accepts exactly the names whose last four
      characters are `.pdf` in any mix of letter case. */
  lemma PdfExtensionByCase(name: string)
    ensures HasPdfExtension(name) <==> PdfSuffix(name)
  {
    var l := Lower(name);
    var n := |name|;
    if n >= 4 {
      assert HasPdfExtension(name) <==>
        (l[n - 4] == '.' && l[n - 3] == 'p' && l[n - 2] == 'd' && l[n - 1] == 'f') by {
        if l[n - 4] == '.' && l[n - 3] == 'p' && l[n - 2] == 'd' && l[n - 1] == 'f' {
          assert l[n - 4..] == ".pdf";
        }
        if HasPdfExtension(name) {
          assert l[n - 4..][0] == '.' && l[n - 4..][1] == 'p';
          assert l[n - 4..][2] == 'd' && l[n - 4..][3] == 'f';
        }
      }
    }
  }

  /** Index of the last `c` in `s`, or -1 when there is none. */
  function LastIndexOf(s: string, c: char): (r: int)
    ensures -1 <= r < |s|
    ensures r >= 0 ==> s[r] == c
    ensures forall i :: r < i < |s| ==> s[i] != c
  {
    if |s| == 0 then -1
    else if s[|s| - 1] == c then |s| - 1
    else LastIndexOf(s[..|s| - 1], c)
  }

  predicate AllDots(s: string) {
    forall i :: 0 <= i < |s| ==> s[i] == '.'
  }

  /** Where `os.path.splitext` (POSIX) starts the extension, or -1: at the
      last dot of the last path component, unless everything before that
      dot in the component is a dot (a hidden file such as `.pdf`). */
  function ExtStart(p: string): (k: int)
    ensures -1 <= k < |p|
    ensures k >= 0 ==> p[k] == '.' && forall i :: k < i < |p| ==> p[i] != '.' && p[i] != '/'
  {
    var sepIndex := LastIndexOf(p, '/');
    var dotIndex := LastIndexOf(p, '.');
    if dotIndex > sepIndex && !AllDots(p[sepIndex + 1..dotIndex]) then dotIndex else -1
  }

  /** The extension part of `os.path.splitext(p)`: a suffix of `p` that is
      empty or is one dot followed by neither dots nor slashes. */
  function SplitExt(p: string): (e: string)
    ensures |e| <= |p| && p[|p| - |e|..] == e
    ensures |e| > 0 ==> e[0] == '.'
    ensures forall i :: 0 <= i < |e| ==> e[i] != '/'
    ensures forall i :: 1 <= i < |e| ==> e[i] != '.'
    // A non-empty extension starts at a dot of the last path component
    // with something other than dots before it in that component.
    ensures |e| > 0 ==>
      && LastIndexOf(p, '/') + 1 <= |p| - |e|
      && !AllDots(p[LastIndexOf(p, '/') + 1..|p| - |e|])
    // No extension: every dot of the last component has only dots before it.
    ensures |e| == 0 ==>
      forall k :: LastIndexOf(p, '/') < k < |p| && p[k] == '.' ==> AllDots(p[LastIndexOf(p, '/') + 1..k])
  {
    var k := ExtStart(p);
    if k < 0 then
      NoExtension(p);
      []
    else
      ExtensionShape(p, k);
      p[k..]
  }

  /** When `ExtStart` finds no extension, the last component's dots are
      all leading dots. */
  lemma NoExtension(p: string)
    requires ExtStart(p) < 0
    ensures forall k :: LastIndexOf(p, '/') < k < |p| && p[k] == '.' ==> AllDots(p[LastIndexOf(p, '/') + 1..k])
  {
    var sep := LastIndexOf(p, '/');
    var dot := LastIndexOf(p, '.');
    forall k | sep < k < |p| && p[k] == '.' ensures AllDots(p[sep + 1..k]) {
      DotPrefix(p, sep + 1, k, dot);
    }
  }

  /** A dot at `k`, no dot after `dot`, and only dots in `p[lo..dot]`:
      then `p[lo..k]` is only dots as well. */
  lemma DotPrefix(p: string, lo: nat, k: nat, dot: int)
    requires lo <= k < |p| && p[k] == '.' && -1 <= dot < |p|
    requires forall i :: dot < i < |p| ==> p[i] != '.'
    requires dot < lo || AllDots(p[lo..dot])
    ensures AllDots(p[lo..k])
  {
    assert k <= dot;
    var pre := p[lo..k];
    var stem := p[lo..dot];
    forall j | 0 <= j < |pre| ensures pre[j] == '.' {
      assert pre[j] == stem[j];
    }
  }

  /** The suffix from a dot after which no dot or slash follows. */
  lemma ExtensionShape(p: string, k: nat)
    requires k < |p| && p[k] == '.'
    requires forall i :: k < i < |p| ==> p[i] != '.' && p[i] != '/'
    ensures p[k..][0] == '.'
    ensures forall i :: 0 <= i < |p[k..]| ==> p[k..][i] != '/'
    ensures forall i :: 1 <= i < |p[k..]| ==> p[k..][i] != '.'
  {
    var e := p[k..];
    forall i | 0 <= i < |e| ensures e[i] == p[k + i] { }
  }

  /** In a name ending in `.pdf` in any case, the last dot is the one
      four characters from the end and every slash comes before it. */
  lemma PdfNameIndices(name: string)
    requires PdfSuffix(name)
    ensures LastIndexOf(name, '.') == |name| - 4
    ensures LastIndexOf(name, '/') < |name| - 4
  {
  }

  /** For a name ending in `.pdf` in any case, the extension is its last
      four characters unless the base name before them is only dots, in
      which case there is no extension at all. */
  lemma PdfSplitExt(name: string)
    requires PdfSuffix(name)
    ensures var stemStart := LastIndexOf(name, '/') + 1;
      && stemStart <= |name| - 4
      && (SplitExt(name) == name[|name| - 4..] <==> !AllDots(name[stemStart..|name| - 4]))
      && (SplitExt(name) == [] <==> AllDots(name[stemStart..|name| - 4]))
  {
    PdfNameIndices(name);
    var n := |name|;
    var stem := name[LastIndexOf(name, '/') + 1..n - 4];
    assert ExtStart(name) == (if AllDots(stem) then -1 else n - 4);
    assert |name[n - 4..]| == 4;
  }
}

=== FILE: upload_route.dfy ===
/** The `/upload_pdf` route: request validation, then save, extract, chunk
    and index the file, answering 500 (and removing the saved file) when
    text, chunks or the index cannot be produced. Extraction and chunking
    are inputs; so are the generated UUID and whether saving raises. */
module UploadRoute {
  import opened Wrappers
  import opened Http
  import opened Text
  import VectorStore
  import opened Backend

  const PDF_URL_PREFIX: string := "http://localhost:5000/static_pdfs/"

  /** The request's `pdf_file` part, reduced to its client-supplied file
      name; `None` when the part is missing. */
  datatype UploadRequest = UploadRequest(file: Option<string>)

  /** What the environment decides: the fresh UUID text, whether
      `pdf_file.save` succeeds, the text `read_pdf` extracts ("" when it
      fails), the chunks the splitter produces, and the store's behaviour. */
  datatype UploadEnv = UploadEnv(uuid: string, saveSucceeds: bool, text: string,
                                 chunks: seq<string>, store: VectorStore.Env)

  datatype UploadError =
    | NoFilePart | NoSelectedFile | NotPdf      // 400
    | SaveFailed | NoContent | NoChunks | IndexFailed  // 500

  datatype UploadBody = Uploaded(filename: string, pdfUrl: string) | Failed(error: UploadError)

  datatype UploadResult = UploadResult(status: int, body: UploadBody, server: Server)

  /** The request names a file whose name passes the `.pdf` test. */
  predicate ValidUpload(req: UploadRequest) {
    req.file.Some? && req.file.value != [] && HasPdfExtension(req.file.value)
  }

  /** The name the file is saved and indexed under: the UUID followed by
      the original extension. */
  function StoredName(filename: string, uuid: string): string {
    uuid + SplitExt(filename)
  }

  function UploadPdf(sv: Server, req: UploadRequest, env: UploadEnv): (r: UploadResult)
    // 400 exactly for a missing part, an empty name, or a non-PDF name,
    // and a rejected request changes nothing.
    ensures r.status == BAD_REQUEST <==> !ValidUpload(req)
    ensures !ValidUpload(req) ==> r.server == sv
    ensures r.status in {OK, BAD_REQUEST, SERVER_ERROR}
    // Success: the stored file is kept, its vector store is cached, and the
    // URL points at it.
    ensures r.status == OK ==>
      var name := StoredName(req.file.value, env.uuid);
      && r.body == Uploaded(req.file.value, PDF_URL_PREFIX + name)
      && name in r.server.uploads
      && name in r.server.store.cache
    // Success needs extracted text and chunks.
    ensures r.status == OK ==> env.saveSucceeds && env.text != [] && |env.chunks| > 0
    // Every 500 after the file was saved removes it again.
    ensures ValidUpload(req) && env.saveSucceeds && r.status == SERVER_ERROR ==>
      StoredName(req.file.value, env.uuid) !in r.server.uploads
    // A saved, readable, chunkable upload is indexed under its stored name:
    // 200 exactly when the lookup succeeds (a failed build is a 500), and
    // the store afterwards is what the lookup left. Every earlier exit
    // leaves the store alone.
    ensures ValidUpload(req) && env.saveSucceeds && env.text != [] && |env.chunks| > 0 ==>
      var lookup := VectorStore.GetOrCreate(sv.store, StoredName(req.file.value, env.uuid), Some(env.chunks), env.store);
      && (r.status == OK <==> lookup.result.Ok?)
      && r.server.store == lookup.state
    ensures !(ValidUpload(req) && env.saveSucceeds && env.text != [] && |env.chunks| > 0) ==>
      r.server.store == sv.store && r.status != OK
    // No other upload is touched.
    ensures ValidUpload(req) ==>
      r.server.uploads - {StoredName(req.file.value, env.uuid)} == sv.uploads - {StoredName(req.file.value, env.uuid)}
  {
    if req.file.None? then
      UploadResult(BAD_REQUEST, Failed(NoFilePart), sv)
    else if req.file.value == [] then
      UploadResult(BAD_REQUEST, Failed(NoSelectedFile), sv)
    else if !HasPdfExtension(req.file.value) then
      UploadResult(BAD_REQUEST, Failed(NotPdf), sv)
    else
      var filename := req.file.value;
      var name := StoredName(filename, env.uuid);
      if !env.saveSucceeds then
        UploadResult(SERVER_ERROR, Failed(SaveFailed), sv)
      else if env.text == [] then
        UploadResult(SERVER_ERROR, Failed(NoContent), sv.(uploads := sv.uploads - {name}))
      else if |env.chunks| == 0 then
        UploadResult(SERVER_ERROR, Failed(NoChunks), sv.(uploads := sv.uploads - {name}))
      else
        var lookup := VectorStore.GetOrCreate(sv.store, name, Some(env.chunks), env.store);
        if lookup.result.Err? then
          UploadResult(SERVER_ERROR, Failed(IndexFailed), Server(lookup.state, sv.uploads - {name}))
        else
          UploadResult(OK, Uploaded(filename, PDF_URL_PREFIX + name), Server(lookup.state, sv.uploads + {name}))
  }

  /** A failed save is a 500 that leaves everything as it was. */
  lemma SaveFailureChangesNothing(sv: Server, req: UploadRequest, env: UploadEnv)
    requires ValidUpload(req) && !env.saveSucceeds
    ensures UploadPdf(sv, req, env) == UploadResult(SERVER_ERROR, Failed(SaveFailed), sv)
  {
  }

  /** With a fresh name and a succeeding build, a readable, chunkable PDF
      is indexed over exactly its chunks. */
  lemma FreshUploadIndexesChunks(sv: Server, req: UploadRequest, env: UploadEnv)
    requires ValidUpload(req) && env.saveSucceeds && env.text != [] && |env.chunks| > 0
    requires StoredName(req.file.value, env.uuid) !in sv.store.cache
    requires env.store.build == VectorStore.BuildOk
    requires env.store.loadRaises || !VectorStore.OnDisk(sv.store.disk, StoredName(req.file.value, env.uuid))
    ensures var r := UploadPdf(sv, req, env);
      && r.status == OK
      && r.server.store.cache[StoredName(req.file.value, env.uuid)].origin == VectorStore.Built(env.chunks)
  {
  }

  /** A build that raises for a fresh name is a 500: the saved file is
      removed again and the cache gains nothing. */
  lemma BuildFailureIsServerError(sv: Server, req: UploadRequest, env: UploadEnv)
    requires ValidUpload(req) && env.saveSucceeds && env.text != [] && |env.chunks| > 0
    requires StoredName(req.file.value, env.uuid) !in sv.store.cache
    requires env.store.build.BuildFails?
    requires env.store.loadRaises || !VectorStore.OnDisk(sv.store.disk, StoredName(req.file.value, env.uuid))
    ensures var r := UploadPdf(sv, req, env);
      && r == UploadResult(SERVER_ERROR, Failed(IndexFailed), r.server)
      && r.server.store.cache == sv.store.cache
      && StoredName(req.file.value, env.uuid) !in r.server.uploads
  {
  }

  /** The stored name keeps the `.pdf` suffix as the client spelled it,
      except for a base name such as `.pdf` that is only dots before it,
      which is stored under the bare UUID. */
  lemma StoredNameExtension(req: UploadRequest, uuid: string)
    requires ValidUpload(req)
    ensures var f := req.file.value;
      var stemStart := LastIndexOf(f, '/') + 1;
      && stemStart <= |f| - 4
      && (AllDots(f[stemStart..|f| - 4]) ==> StoredName(f, uuid) == uuid)
      && (!AllDots(f[stemStart..|f| - 4]) ==> StoredName(f, uuid) == uuid + f[|f| - 4..])
  {
    PdfExtensionByCase(req.file.value);
    PdfSplitExt(req.file.value);
  }

  /** Uploading keeps every cached handle backed by a non-empty collection. */
  lemma UploadConsistent(sv: Server, req: UploadRequest, env: UploadEnv)
    requires VectorStore.Consistent(sv.store)
    ensures VectorStore.Consistent(UploadPdf(sv, req, env).server.store)
  {
    if ValidUpload(req) && env.saveSucceeds && env.text != [] && |env.chunks| > 0 {
      VectorStore.GetOrCreateConsistent(sv.store, StoredName(req.file.value, env.uuid), Some(env.chunks), env.store);
    }
  }
}

=== FILE: vector_store.dfy ===
/** `get_or_create_vector_store`: the per-document vector-store lookup.
    The state is the in-memory cache (document id to handle) and the
    on-disk catalogue of collections with their chunk counts. Whether
    opening the on-disk store raises, and how a build ends, are inputs. */
module VectorStore {
  import opened Wrappers

  type Id = string

  /** How a handle came to be: opened from a non-empty on-disk collection
      holding `count` chunks, or built from the supplied chunks. */
  datatype Origin = Loaded(count: nat) | Built(chunks: seq<string>)

  datatype Handle = Handle(name: Id, origin: Origin)

  /** `cache`: `vector_stores_cache`; `disk`: collection name to chunk count
      in the persistent store. */
  datatype State = State(cache: map<Id, Handle>, disk: map<Id, nat>)

  /** How a build (`Chroma.from_texts`) ends. A failed build may leave
      behind the empty collection it created before embedding failed. */
  datatype BuildOutcome = BuildOk | BuildFails(leavesEmptyCollection: bool)

  /** `loadRaises`: listing or opening the on-disk collection raised. */
  datatype Env = Env(loadRaises: bool, build: BuildOutcome)

  /** The two exceptions the function raises: nothing to load and no chunks,
      or a failed build. */
  datatype StoreError = NotFound | BuildFailed

  /** The result, the state afterwards, and whether a build (the embedding
      of all chunks) was attempted. */
  datatype Lookup = Lookup(result: Result<Handle, StoreError>, state: State, built: bool)

  /** A collection exists on disk and holds at least one chunk; a
      collection with no chunks counts as absent. */
  predicate OnDisk(disk: map<Id, nat>, id: Id) {
    id in disk && disk[id] > 0
  }

  /** Python's truthiness of `text_chunks`: neither `None` nor empty. */
  predicate HasChunks(chunks: Option<seq<string>>) {
    chunks.Some? && |chunks.value| > 0
  }

  /** Every cached handle is named by its key and backed by a non-empty
      on-disk collection. */
  ghost predicate Consistent(s: State) {
    forall id :: id in s.cache ==> s.cache[id].name == id && OnDisk(s.disk, id)
  }

  function GetOrCreate(s: State, id: Id, chunks: Option<seq<string>>, env: Env): (r: Lookup)
    // A returned handle belongs to `id` and is what the cache now holds.
    ensures r.result.Ok? && id !in s.cache ==> r.result.value.name == id
    ensures r.result.Ok? ==> id in r.state.cache && r.state.cache[id] == r.result.value
    // A failure leaves no cache entry for `id`.
    ensures r.result.Err? ==> id !in r.state.cache
    // Only the entry for `id` can change, in the cache and on disk.
    ensures forall k :: k != id ==> (k in r.state.cache <==> k in s.cache)
    ensures forall k :: k != id && k in s.cache ==> r.state.cache[k] == s.cache[k]
    ensures forall k :: k != id ==> (k in r.state.disk <==> k in s.disk)
    ensures forall k :: k != id && k in s.disk ==> r.state.disk[k] == s.disk[k]
    // Cached entries are never dropped or replaced.
    ensures id in s.cache ==> id in r.state.cache && r.state.cache[id] == s.cache[id]
    // A build is attempted only on a cache miss with chunks supplied.
    ensures r.built ==> id !in s.cache && HasChunks(chunks)
    // Without a build the on-disk catalogue is untouched.
    ensures !r.built ==> r.state.disk == s.disk
  {
    if id in s.cache then
      Lookup(Ok(s.cache[id]), s, false)
    else if !env.loadRaises && OnDisk(s.disk, id) then
      var h := Handle(id, Loaded(s.disk[id]));
      Lookup(Ok(h), s.(cache := s.cache[id := h]), false)
    else if HasChunks(chunks) then
      match env.build
      case BuildOk =>
        var h := Handle(id, Built(chunks.value));
        var before := if id in s.disk then s.disk[id] else 0;
        Lookup(Ok(h), State(s.cache[id := h], s.disk[id := before + |chunks.value|]), true)
      case BuildFails(leaves) =>
        var disk := if leaves && id !in s.disk then s.disk[id := 0] else s.disk;
        Lookup(Err(BuildFailed), s.(disk := disk), true)
    else
      Lookup(Err(NotFound), s, false)
  }

  /** A cache hit returns the cached handle and changes nothing. */
  lemma CacheHit(s: State, id: Id, chunks: Option<seq<string>>, env: Env)
    requires id in s.cache
    ensures GetOrCreate(s, id, chunks, env) == Lookup(Ok(s.cache[id]), s, false)
  {
  }

  /** On a miss, a readable collection with chunks is opened, published
      to the cache and returned, without a build. */
  lemma LoadFromDisk(s: State, id: Id, chunks: Option<seq<string>>, env: Env)
    requires id !in s.cache && !env.loadRaises && OnDisk(s.disk, id)
    ensures var r := GetOrCreate(s, id, chunks, env);
      && r.result == Ok(Handle(id, Loaded(s.disk[id])))
      && r.state == s.(cache := s.cache[id := Handle(id, Loaded(s.disk[id]))])
      && !r.built
  {
  }

  /** The load path never caches a collection with no chunks: a lookup
      that caches `id` without building had a non-empty collection, and
      an empty collection with no chunks supplied is `NotFound`. */
  lemma EmptyCollectionIsAbsent(s: State, id: Id, chunks: Option<seq<string>>, env: Env)
    requires id !in s.cache && id in s.disk && s.disk[id] == 0
    ensures var r := GetOrCreate(s, id, chunks, env);
      && (r.result.Ok? ==> r.built && r.result.value.origin.Built?)
      && (!HasChunks(chunks) ==> r == Lookup(Err(NotFound), s, false))
  {
  }

  /** On a miss with no loadable collection (absent, empty, or raising
      while loading) and chunks supplied, a build runs; if it succeeds the
      cache maps `id` to the new handle over exactly those chunks, and the
      collection on disk grows by their number. */
  lemma BuildOnMiss(s: State, id: Id, chunks: seq<string>, env: Env)
    requires id !in s.cache && (env.loadRaises || !OnDisk(s.disk, id))
    requires |chunks| > 0 && env.build == BuildOk
    ensures var r := GetOrCreate(s, id, Some(chunks), env);
      && r.built
      && r.result == Ok(Handle(id, Built(chunks)))
      && r.state.cache == s.cache[id := Handle(id, Built(chunks))]
      && OnDisk(r.state.disk, id)
      && r.state.disk[id] == (if id in s.disk then s.disk[id] else 0) + |chunks|
  {
  }

  /** A miss with no loadable collection and no chunks (`None` or an empty
      list) raises `NotFound` and changes nothing. */
  lemma MissingWithoutChunks(s: State, id: Id, chunks: Option<seq<string>>, env: Env)
    requires id !in s.cache && (env.loadRaises || !OnDisk(s.disk, id))
    requires !HasChunks(chunks)
    ensures GetOrCreate(s, id, chunks, env) == Lookup(Err(NotFound), s, false)
  {
  }

  /** A failed build raises, leaves the cache as it was (so without an
      entry for `id`), and leaves at most an empty collection behind. */
  lemma BuildFailureLeavesNoEntry(s: State, id: Id, chunks: Option<seq<string>>, env: Env)
    requires id !in s.cache && (env.loadRaises || !OnDisk(s.disk, id))
    requires HasChunks(chunks) && env.build.BuildFails?
    ensures var r := GetOrCreate(s, id, chunks, env);
      && r.result == Err(BuildFailed)
      && r.built
      && r.state.cache == s.cache
      && (OnDisk(r.state.disk, id) ==> OnDisk(s.disk, id))
  {
  }

  /** After a failed build, a lookup without chunks still finds nothing
      unless a non-empty collection was already on disk: the empty
      collection a failed build may leave is never served. */
  lemma FailedBuildIsNotServed(s: State, id: Id, chunks: Option<seq<string>>, env: Env, env2: Env)
    requires id !in s.cache && !OnDisk(s.disk, id)
    requires HasChunks(chunks) && env.build.BuildFails?
    ensures var r := GetOrCreate(s, id, chunks, env);
      GetOrCreate(r.state, id, None, env2).result == Err(NotFound)
  {
  }

  /** A second lookup after a successful one is a cache hit: it returns the
      same handle, changes nothing and builds nothing, whatever chunks or
      storage behaviour it meets. */
  lemma SecondLookupHits(s: State, id: Id, c1: Option<seq<string>>, e1: Env, c2: Option<seq<string>>, e2: Env)
    requires GetOrCreate(s, id, c1, e1).result.Ok?
    ensures var r1 := GetOrCreate(s, id, c1, e1);
      GetOrCreate(r1.state, id, c2, e2) == Lookup(r1.result, r1.state, false)
  {
  }

  /** The lookup keeps every cached handle backed by a non-empty collection. */
  lemma GetOrCreateConsistent(s: State, id: Id, chunks: Option<seq<string>>, env: Env)
    requires Consistent(s)
    ensures Consistent(GetOrCreate(s, id, chunks, env).state)
  {
  }
}

=== FILE: wipe_route.dfy ===
/** The `/delete_all_data` route: the upload and vector-store folders are
    emptied, then the cache is cleared, then the JSON output folder is
    emptied, each block best effort; successes and failures are collected
    and the status is 500 exactly when something failed. The
    vector-store folder block appears twice in the route and runs twice. */
module WipeRoute {
  import opened Wrappers
  import opened Http
  import VectorStore
  import UploadRoute
  import opened Backend

  /** A storage folder as the route finds it: whether it exists, whether
      `shutil.rmtree` succeeds on it, and whether `os.makedirs` then
      succeeds in recreating it. */
  datatype Root = Root(present: bool, rmtreeSucceeds: bool, makedirsSucceeds: bool)

  datatype Roots = Roots(uploads: Root, vectorDb: Root, json: Root)

  datatype Folder = UploadFolder | VectorDbFolder | JsonFolder

  /** An entry of the `deleted` list. */
  datatype Deleted = AllFilesIn(folder: Folder) | InMemoryCache

  /** Status, the `deleted` list and the `errors` list (one entry per
      failed folder block). */
  datatype WipeReport = WipeReport(status: int, deleted: seq<Deleted>, errors: seq<Folder>)

  datatype WipeResult = WipeResult(report: WipeReport, server: Server)

  /** What one folder block contributes to the two lists. */
  datatype Cleared = Cleared(deleted: seq<Deleted>, errors: seq<Folder>)

  function RootOf(roots: Roots, f: Folder): Root {
    match f
    case UploadFolder => roots.uploads
    case VectorDbFolder => roots.vectorDb
    case JsonFolder => roots.json
  }

  /** How many blocks of the route handle the folder. */
  function Blocks(f: Folder): nat {
    if f == VectorDbFolder then 2 else 1
  }

  /** The folder's contents are gone: it existed and `rmtree` succeeded. */
  predicate Emptied(root: Root) {
    root.present && root.rmtreeSucceeds
  }

  /** The block reports success: removed and recreated. */
  predicate Removed(root: Root) {
    Emptied(root) && root.makedirsSucceeds
  }

  /** The block reports an error: the folder existed, and `rmtree` or
      `makedirs` raised. */
  predicate RemovalFails(root: Root) {
    root.present && !(root.rmtreeSucceeds && root.makedirsSucceeds)
  }

  /** The folder as a later block finds it: gone if it was removed but not
      recreated, otherwise as before. */
  function After(root: Root): Root {
    root.(present := root.present && (!root.rmtreeSucceeds || root.makedirsSucceeds))
  }

  /** Successes reported for a folder over all blocks that handle it. */
  function Successes(root: Root, f: Folder): nat {
    if Removed(root) then Blocks(f) else 0
  }

  /** Errors reported for a folder over all blocks that handle it: a
      failing `rmtree` fails again in the repeated block, while a folder
      removed but not recreated is absent for it. */
  function Errors(root: Root, f: Folder): nat {
    if !RemovalFails(root) then 0
    else if root.rmtreeSucceeds then 1
    else Blocks(f)
  }

  /** Number of occurrences of `x` in `s`. */
  function Count<T(==)>(s: seq<T>, x: T): nat {
    if |s| == 0 then 0 else (if s[0] == x then 1 else 0) + Count(s[1..], x)
  }

  lemma {:induction false} CountConcat<T>(a: seq<T>, b: seq<T>, x: T)
    ensures Count(a + b, x) == Count(a, x) + Count(b, x)
  {
    if |a| > 0 {
      assert (a + b)[1..] == a[1..] + b;
      CountConcat(a[1..], b, x);
    } else {
      assert a + b == b;
    }
  }

  /** One `try: if exists: rmtree; makedirs; append` block. */
  function ClearFolder(root: Root, f: Folder): (c: Cleared)
    ensures forall d :: Count(c.deleted, d) == if d == AllFilesIn(f) && Removed(root) then 1 else 0
    ensures forall g :: Count(c.errors, g) == if g == f && RemovalFails(root) then 1 else 0
  {
    if !root.present then Cleared([], [])
    else if root.rmtreeSucceeds && root.makedirsSucceeds then Cleared([AllFilesIn(f)], [])
    else Cleared([], [f])
  }

  /** The `deleted` list, block by block in route order; the repeated
      vector-store block meets the folder as the first one left it. */
  function Deletions(roots: Roots, cacheHeld: bool): (d: seq<Deleted>)
    ensures forall f: Folder :: Count(d, AllFilesIn(f)) == Successes(RootOf(roots, f), f)
    ensures Count(d, InMemoryCache) == if cacheHeld then 1 else 0
  {
    DeletedCount(roots, cacheHeld, AllFilesIn(UploadFolder));
    DeletedCount(roots, cacheHeld, AllFilesIn(VectorDbFolder));
    DeletedCount(roots, cacheHeld, AllFilesIn(JsonFolder));
    DeletedCount(roots, cacheHeld, InMemoryCache);
    DeletedList(roots, cacheHeld)
  }

  function DeletedList(roots: Roots, cacheHeld: bool): seq<Deleted> {
    ClearFolder(roots.uploads, UploadFolder).deleted
      + ClearFolder(roots.vectorDb, VectorDbFolder).deleted
      + ClearFolder(After(roots.vectorDb), VectorDbFolder).deleted
      + (if cacheHeld then [InMemoryCache] else [])
      + ClearFolder(roots.json, JsonFolder).deleted
  }

  /** How often one entry occurs in the `deleted` list. */
  lemma DeletedCount(roots: Roots, cacheHeld: bool, x: Deleted)
    ensures Count(DeletedList(roots, cacheHeld), x) ==
      match x
      case AllFilesIn(f) => Successes(RootOf(roots, f), f)
      case InMemoryCache => if cacheHeld then 1 else 0
  {
    RepeatedBlock(roots.vectorDb);
    CountConcat5(ClearFolder(roots.uploads, UploadFolder).deleted,
                 ClearFolder(roots.vectorDb, VectorDbFolder).deleted,
                 ClearFolder(After(roots.vectorDb), VectorDbFolder).deleted,
                 if cacheHeld then [InMemoryCache] else [],
                 ClearFolder(roots.json, JsonFolder).deleted, x);
  }

  /** The repeated block succeeds exactly when the first did, and fails
      again only when `rmtree` failed. */
  lemma RepeatedBlock(root: Root)
    ensures Removed(After(root)) <==> Removed(root)
    ensures RemovalFails(After(root)) <==> RemovalFails(root) && !root.rmtreeSucceeds
  {
  }

  lemma CountConcat5<T>(a: seq<T>, b: seq<T>, c: seq<T>, d: seq<T>, e: seq<T>, x: T)
    ensures Count(a + b + c + d + e, x) == Count(a, x) + Count(b, x) + Count(c, x) + Count(d, x) + Count(e, x)
  {
    CountConcat(a + b + c + d, e, x);
    CountConcat(a + b + c, d, x);
    CountConcat(a + b, c, x);
    CountConcat(a, b, x);
  }

  /** The `errors` list, block by block in route order. */
  function Failures(roots: Roots): (e: seq<Folder>)
    ensures forall f: Folder :: Count(e, f) == Errors(RootOf(roots, f), f)
    ensures |e| == 0 <==> !RemovalFails(roots.uploads) && !RemovalFails(roots.vectorDb) && !RemovalFails(roots.json)
  {
    FailedCount(roots, UploadFolder);
    FailedCount(roots, VectorDbFolder);
    FailedCount(roots, JsonFolder);
    FailedList(roots)
  }

  function FailedList(roots: Roots): seq<Folder> {
    ClearFolder(roots.uploads, UploadFolder).errors
      + ClearFolder(roots.vectorDb, VectorDbFolder).errors
      + ClearFolder(After(roots.vectorDb), VectorDbFolder).errors
      + ClearFolder(roots.json, JsonFolder).errors
  }

  /** How often one folder occurs in the `errors` list. */
  lemma FailedCount(roots: Roots, f: Folder)
    ensures Count(FailedList(roots), f) == Errors(RootOf(roots, f), f)
  {
    RepeatedBlock(roots.vectorDb);
    var a := ClearFolder(roots.uploads, UploadFolder).errors;
    var b := ClearFolder(roots.vectorDb, VectorDbFolder).errors;
    var b2 := ClearFolder(After(roots.vectorDb), VectorDbFolder).errors;
    var c := ClearFolder(roots.json, JsonFolder).errors;
    assert a + b + b2 + c + [] == FailedList(roots);
    CountConcat5(a, b, b2, c, [], f);
  }

  function DeleteAllData(sv: Server, roots: Roots): (r: WipeResult)
    // Every folder block runs whatever happened before it: each folder
    // contributes its successes and errors, and a folder that does not
    // exist contributes nothing.
    ensures forall f: Folder ::
      Count(r.report.deleted, AllFilesIn(f)) == Successes(RootOf(roots, f), f)
    ensures forall f: Folder ::
      Count(r.report.errors, f) == Errors(RootOf(roots, f), f)
    // The cache ends empty; it is reported only if it held something.
    ensures r.server.store.cache == map[]
    ensures Count(r.report.deleted, InMemoryCache) == (if |sv.store.cache| > 0 then 1 else 0)
    // 500 exactly when some block failed, 200 otherwise.
    ensures r.report.status in {OK, SERVER_ERROR}
    ensures r.report.status == SERVER_ERROR <==> |r.report.errors| > 0
    // A folder whose `rmtree` succeeded has lost its contents, even if
    // recreating it failed; the others are untouched.
    ensures r.server.uploads == (if Emptied(roots.uploads) then {} else sv.uploads)
    ensures r.server.store.disk == (if Emptied(roots.vectorDb) then map[] else sv.store.disk)
  {
    var errors := Failures(roots);
    var status := if |errors| > 0 then SERVER_ERROR else OK;
    var store := VectorStore.State(map[], if Emptied(roots.vectorDb) then map[] else sv.store.disk);
    WipeResult(WipeReport(status, Deletions(roots, |sv.store.cache| > 0), errors),
               Server(store, if Emptied(roots.uploads) then {} else sv.uploads))
  }

  /** When every folder exists and is removed, the report lists the
      vector-store folder twice and nothing fails. */
  lemma CleanWipeReport(sv: Server, roots: Roots)
    requires Removed(roots.uploads) && Removed(roots.vectorDb) && Removed(roots.json)
    requires |sv.store.cache| > 0
    ensures DeleteAllData(sv, roots).report == WipeReport(OK,
      [AllFilesIn(UploadFolder), AllFilesIn(VectorDbFolder), AllFilesIn(VectorDbFolder),
       InMemoryCache, AllFilesIn(JsonFolder)], [])
  {
  }

  /** Once the vector-store folder was removed, no document can be found
      any more without re-uploading it. */
  lemma WipeThenLookupNotFound(sv: Server, roots: Roots, id: VectorStore.Id, env: VectorStore.Env)
    requires Emptied(roots.vectorDb)
    ensures var after := DeleteAllData(sv, roots).server.store;
      VectorStore.GetOrCreate(after, id, None, env) == VectorStore.Lookup(Err(VectorStore.NotFound), after, false)
  {
  }

  /** A failed vector-store removal is not rolled back, but it does not
      hide documents either: with the cache cleared, a readable non-empty
      collection is loaded again from disk. */
  lemma FailedWipeReloads(sv: Server, roots: Roots, id: VectorStore.Id)
    requires !Emptied(roots.vectorDb) && VectorStore.OnDisk(sv.store.disk, id)
    ensures var after := DeleteAllData(sv, roots).server.store;
      VectorStore.GetOrCreate(after, id, None, VectorStore.Env(false, VectorStore.BuildOk)).result
        == Ok(VectorStore.Handle(id, VectorStore.Loaded(sv.store.disk[id])))
  {
  }

  /** After a complete wipe, uploading the same document again succeeds
      and indexes it afresh from its chunks. */
  lemma WipeThenReupload(sv: Server, roots: Roots, req: UploadRoute.UploadRequest, env: UploadRoute.UploadEnv)
    requires Emptied(roots.vectorDb)
    requires UploadRoute.ValidUpload(req) && env.saveSucceeds && env.text != [] && |env.chunks| > 0
    requires env.store.build == VectorStore.BuildOk
    ensures var r := UploadRoute.UploadPdf(DeleteAllData(sv, roots).server, req, env);
      && r.status == OK
      && r.server.store.cache[UploadRoute.StoredName(req.file.value, env.uuid)].origin == VectorStore.Built(env.chunks)
  {
    UploadRoute.FreshUploadIndexesChunks(DeleteAllData(sv, roots).server, req, env);
  }

  /** A vector-store folder that is removed but cannot be recreated is
      reported once: the repeated block no longer finds it. Its contents
      are gone all the same. */
  lemma RecreateFailureReportedOnce(sv: Server, roots: Roots)
    requires roots.vectorDb.present && roots.vectorDb.rmtreeSucceeds && !roots.vectorDb.makedirsSucceeds
    ensures var r := DeleteAllData(sv, roots);
      && Count(r.report.errors, VectorDbFolder) == 1
      && Count(r.report.deleted, AllFilesIn(VectorDbFolder)) == 0
      && r.report.status == SERVER_ERROR
      && r.server.store.disk == map[]
  {
  }

  /** A vector-store folder whose `rmtree` raises fails in both blocks. */
  lemma RemoveFailureReportedTwice(sv: Server, roots: Roots)
    requires roots.vectorDb.present && !roots.vectorDb.rmtreeSucceeds
    ensures var r := DeleteAllData(sv, roots);
      && Count(r.report.errors, VectorDbFolder) == 2
      && r.report.status == SERVER_ERROR
      && r.server.store.disk == sv.store.disk
  {
  }

  /** Wiping keeps every cached handle backed by a non-empty collection. */
  lemma WipeConsistent(sv: Server, roots: Roots)
    ensures VectorStore.Consistent(DeleteAllData(sv, roots).server.store)
  {
  }
}

=== FILE: wrappers.dfy ===
/** Optional values and success/failure results, standing in for Python's
    `None` and for exceptions that a caller catches. */
module Wrappers {

  datatype Option<+T> = None | Some(value: T)

  datatype Result<+T, +E> = Ok(value: T) | Err(error: E)
}
